=== FILE: README.md ===
# Funding order book: a Dafny model

This project models the pure part of `fetch_funding_orderbook` in
`funding_orderbook.py`: the function that turns the decoded JSON payload of the
exchange's fUSD funding book into two depth frames, bids and asks. The
function works in three stages, and so does the model.

1. **Record parser** (`Records`). Each raw tuple of the payload becomes an
   `Order` with `Rate = 100 * field 0`, `Period = int(field 1)`,
   `Amount = field 2` and `Orders = field 3`. A tuple whose parse raises
   `ValueError`, `TypeError` or `IndexError` is dropped, and the loop goes on.
   The conversions follow Python's semantics on JSON values (`PyJson`,
   `NumText`). A list element is subscripted, and so is a string, one
   character at a time. `null`, numbers and booleans raise `TypeError`.
   `float(True)` is `1.0`. `int(x)` truncates toward zero. Plain digit text
   is accepted by both `float` and `int`; text with a decimal point only by
   `float`.
2. **Guards** (`FundingBook`). A payload that is not a non-empty list gives
   `(None, None)`, modelled as `None`. So does a payload where no tuple parses.
   A payload element that is a JSON object also gives `None`: subscripting a
   dict with `0` raises `KeyError`. The inner `except` does not catch that
   error. The outer `except Exception` does, and returns `(None, None)`.
3. **Side splitter** (`Depth`). Records with `Amount > 0` are bids and
   records with `Amount < 0` are asks. A record with a zero amount is on
   neither side. Ask amounts go through `abs()`. Each side gets a
   `Cumulative` running sum in record order. Both sides keep payload order:
   nothing is sorted by rate. Every row keeps its index label, which is its
   position in the parsed record list, as the filtered pandas frames do.

The side specification `FundingBook.DepthSide` says what a side is without
mentioning the split code. It is exactly the records of that sign, in record
order, with magnitude amounts and a running sum. The contract of `SplitBook`
says that the split meets it. `DepthSideUnique` proves that at most one sequence of
rows does.

Field order: the code reads position 2 as the amount and position 3 as the
order count (`funding_orderbook.py:24`, `28-29`). The exchange documents
funding book entries as `[RATE, PERIOD, COUNT, AMOUNT]`, the other way round.
The model reads the positions the code reads (`Records.AmountPos`,
`Records.OrdersPos`).

## Model

| member | source | states |
|---|---|---|
| `NumText.ParseIntText` | funding_orderbook.py:27 | `int` of text succeeds exactly when the text is an optional sign followed by one or more digits |
| `NumText.DigitsValueConcat` | funding_orderbook.py:27 | digit text is read positionally: the digits of `a` then `b` are worth `a` shifted left by `|b|` places plus `b` |
| `NumText.IntTextAppendDigit` | funding_orderbook.py:27 | appending a digit to text `int` accepts multiplies its value by ten and adds the digit, on the side of the sign; with `SingleDigitText`, `NegatedIntText` and `PlusIntText` this fixes the value of every accepted text |
| `NumText.SingleDigitText` | funding_orderbook.py:26-29 | a single digit is read by `int` and `float` as its own value |
| `NumText.NegatedIntText` | funding_orderbook.py:27 | a leading `-` negates the value of digit text |
| `NumText.PlusIntText` | funding_orderbook.py:27 | a leading `+` leaves the value of digit text unchanged (`int("+5") == 5`) |
| `NumText.SignedFloatText` | funding_orderbook.py:26-29 | a leading `+` leaves `float` of unsigned decimal text unchanged, and a leading `-` is accepted exactly when the text is and negates its value (`float("-1.5") == -1.5`) |
| `NumText.NegativeDecimalText` | funding_orderbook.py:28 | a negative amount sent as text, `"-1.5"`, is read by `float` as `-1.5` |
| `NumText.ParseFloatText` | funding_orderbook.py:26-29 | `float` of accepted text has something after the sign, and the sign decides on which side of zero the value lies |
| `NumText.FloatTextShape` | funding_orderbook.py:26-29 | text `float` accepts is, after its sign, a non-empty digit run or two digit runs, not both empty, around one `.`; so `"."` and `"1.x"` are refused and such a tuple is skipped |
| `NumText.NoDotFloatIsInt` | funding_orderbook.py:26-29 | text without a decimal point is accepted by `float` exactly when `int` accepts it |
| `NumText.DecimalPointValue` | funding_orderbook.py:26-29 | `float("w.f")`, for digit runs `w` and `f` not both empty, is the integer `wf` divided by ten to the power `|f|` |
| `NumText.IntTextIsFloatText` | funding_orderbook.py:26-29 | text that `int` accepts is accepted by `float` too, with the same value |
| `NumText.DotRejectedByInt` | funding_orderbook.py:27 | text with a decimal point is refused by `int`, so such a period field drops the tuple |
| `PyJson.Subscript` | funding_orderbook.py:26-29 | `v[i]` finds something exactly when `v` is a list or a string and `i` is in range; a dict raises `KeyError` and nothing else does; anything else raises `IndexError` or `TypeError` |
| `PyJson.SubscriptFinds` | funding_orderbook.py:26-29 | what `v[i]` finds is the list element, or the one-character string at that position |
| `PyJson.Trunc` | funding_orderbook.py:27 | `int` of a float rounds toward zero: within one of the value and never past it away from zero |
| `PyJson.ToFloat` | funding_orderbook.py:26-29 | `float` of `null`, a list or a dict fails; of a number it is that number; of a boolean it is `1.0` for true and `0.0` for false |
| `PyJson.ToInt` | funding_orderbook.py:27 | `int` of `null`, a list or a dict fails; of a number it is the truncation toward zero; of a boolean it is the integer whose `float` is `float` of the boolean |
| `PyJson.IntIsTruncatedFloat` | funding_orderbook.py:26-29 | wherever `int(v)` succeeds, `float(v)` succeeds too, and `int(v)` is the truncation of `float(v)` |
| `Records.ParseTuple` | funding_orderbook.py:23-40 | a tuple escapes exactly when it is a JSON object; it parses only if it is a list or string with more than three elements; `null`, numbers and booleans are skipped |
| `Records.ArrayTuple` | funding_orderbook.py:26-37 | a list tuple parses exactly when its fields 0-3 convert; the record is then rate 100 × field 0, amount field 2, period int(field 1), orders field 3 |
| `Records.NumericTuple` | funding_orderbook.py:26-37 | four numbers, with any trailing fields, give exactly the record (100 × rate, amount, truncated period, orders) |
| `Records.ExtraFieldsIgnored` | funding_orderbook.py:26-29 | a list tuple's fields after position 3 never change the parse |
| `Records.StringTupleIsCharList` | funding_orderbook.py:25-37 | a string tuple parses exactly as the list of its first four one-character strings, so characters after position 3 never change the parse |
| `Records.StringTupleParses` | funding_orderbook.py:25-37 | a string entry is subscripted by character, so `"1234"` parses as rate 100, period 2, amount 3, orders 4 |
| `Records.ParseAll` | funding_orderbook.py:22-40 | the loop's outcome is `None` exactly when some tuple is an object; otherwise there are at most as many records as tuples, and each record is the parse of some tuple |
| `Records.CollectRecords` | funding_orderbook.py:22-40 | collecting parse outcomes in order gives `None` exactly when some outcome escaped, and otherwise the parsed records in order |
| `Records.ParseOrders` | funding_orderbook.py:22-40 | the loop gives `None` exactly when some tuple is an object; otherwise it gives the surviving records in payload order; it agrees with `ParseAll` |
| `Records.SurvivorsConcat` | funding_orderbook.py:23-40 | parsing distributes over concatenation, so each tuple is handled alone and the records keep payload order |
| `Records.SurvivorsKeepAll` | funding_orderbook.py:23-40 | there are as many records as tuples exactly when every tuple parses |
| `Records.SurvivorsOfOne` | funding_orderbook.py:23-40 | a single tuple yields its record if it parses and nothing otherwise |
| `Records.SkippedTupleVanishes` | funding_orderbook.py:38-40 | a tuple that fails to parse leaves no trace, and parsing continues with the rest |
| `Records.SurvivorsNonEmpty` | funding_orderbook.py:43-45 | some record survives exactly when some tuple parses |
| `Depth.Select` | funding_orderbook.py:51-52 | a side is exactly the records of that sign, each with its index label, in strictly increasing label order, and no record of that sign is missing |
| `Depth.SidesDisjoint` | funding_orderbook.py:51-52 | no record is on both sides |
| `Depth.ZeroAmountOnNeitherSide` | funding_orderbook.py:51-52 | a record with a zero amount is on neither side |
| `Depth.SideSizes` | funding_orderbook.py:51-52 | bids, asks and zero-amount records together account for every parsed record |
| `Depth.SidesCoverRecords` | funding_orderbook.py:51-52 | the sides hold at most the parsed records, and all of them exactly when no amount is zero |
| `Depth.AbsAmounts` | funding_orderbook.py:55 | `abs()` changes only the amount column, to its magnitude, and keeps labels and order |
| `Depth.AskAmountsPositive` | funding_orderbook.py:52-55 | every ask amount after `abs()` is positive and is the negation of the original amount; rate, period and orders are kept |
| `Depth.BidsArePositive` | funding_orderbook.py:51 | applying `abs()` to the bid side would change nothing |
| `Depth.CumsumFrom` | funding_orderbook.py:58-59 | entry `i` of the `Cumulative` column is the sum of amounts `0..i`, and labels and records are kept |
| `Depth.CumulativeSteps` | funding_orderbook.py:58-59 | the `Cumulative` column starts at the first amount and grows by exactly each next amount, so the amounts can be read back from it |
| `Depth.CumulativeIncreasing` | funding_orderbook.py:58-59 | with positive amounts the `Cumulative` column is strictly increasing |
| `Depth.CumulativeEndsAtTotal` | funding_orderbook.py:58-59 | the last `Cumulative` entry is the sum of the side's amounts |
| `Depth.SelectTotal` | funding_orderbook.py:51-59 | summing the magnitudes of a side gives the total magnitude of the records of that sign |
| `FundingBook.Magnitude` | funding_orderbook.py:55 | a record as shown on its side has a non-negative amount of the same size, and the other fields unchanged |
| `FundingBook.FetchFundingOrderbook` | funding_orderbook.py:17-61 | the result is `None` exactly when the payload is not a list, or some tuple is an object, or no tuple parses; otherwise both sides are returned |
| `FundingBook.FetchMeetsDepthSide` | funding_orderbook.py:48-61 | a returned book's bids and asks meet the side specification against the parsed records |
| `FundingBook.SplitBook` | funding_orderbook.py:51-59 | the split, `abs()` and `cumsum()` produce bids and asks that meet the side specification: exactly the records of that sign, in record order, with magnitude amounts and a running sum |
| `FundingBook.DepthSideUnique` | funding_orderbook.py:51-59 | at most one sequence of rows meets the side specification for a sign |
| `FundingBook.SideIsCumsumOfMagnitudes` | funding_orderbook.py:51-59 | both sides are the running sum of their selection with `abs()` applied |
| `FundingBook.SplitAmountsPositive` | funding_orderbook.py:51-55 | every amount on either side is strictly positive |
| `FundingBook.SplitCumulativeIncreasing` | funding_orderbook.py:55-59 | the `Cumulative` column of either side is strictly increasing |
| `FundingBook.SplitCumulativeTotal` | funding_orderbook.py:55-59 | when a side is non-empty, its last `Cumulative` entry is the total magnitude of the records of that sign |
| `FundingBook.SplitSizes` | funding_orderbook.py:51-52 | bids plus asks is at most the number of parsed records, with equality exactly when no amount is zero |
| `FundingBook.ExamplePayload` | funding_orderbook.py:17-61 | a bid, an ask, a `null` and a zero-amount offer give one bid row labelled 0 and one ask row labelled 1 |

## Left out

- The HTTP request and JSON decoding (`funding_orderbook.py:11-14`) and `debug.py`: network I/O and printing. The model starts from the decoded JSON value.
- `st.error` reporting (`funding_orderbook.py:18`, `39`, `44`, `63`): only the `None` result is modelled, not the messages.
- `main` (`funding_orderbook.py:66-126`): the Streamlit page, the display formatting, the best-bid, best-ask and spread metrics, and the sleep/refresh loop.
- Floating point: rates and amounts are exact reals, so `float(x) * 100` is exact. JSON `NaN`/`Infinity` and overflow are not modelled. In particular, a huge JSON integer makes `float()` raise `OverflowError`, which the outer `except` turns into `(None, None)`; the model treats it as an ordinary number.
- `NumText.ParseIntText`: Python's `int()` also strips surrounding whitespace, accepts `_` digit separators and accepts non-ASCII decimal digits (`int('٣') == 3`). The model refuses such text, where Python would convert it. Python also refuses text of more than 4300 digits, which the model converts.
- `PyJson.ToFloat`: Python's `float()` also accepts exponents, surrounding whitespace, `_` separators, non-ASCII decimal digits (`float('１２') == 12.0`) and the words `inf`/`nan`. The model refuses such text, where Python would convert it.
- `NumText.ParseFloatText`: the same text forms as for `PyJson.ToFloat` are refused by the model.
- pandas mechanics: the frames are sequences of rows, the index label is a field of each row, and column dtypes are not modelled.

=== FILE: depth.dfy ===
/** The side splitter of `fetch_funding_orderbook`: the parsed records are
    filtered by the sign of their amount into bids and asks, the ask amounts
    are made positive, and each side gets a running `Cumulative` column.

    Each row keeps its position in the parsed record list, as the filtered
    frames keep the original frame's index labels. */
module Depth {
  import opened Records

  datatype Side = Bid | Ask

  /** The row filter of each side: bids have a positive amount, asks a
      negative one; a zero amount belongs to neither. */
  predicate OnSide(side: Side, amount: real) {
    match side
    case Bid => amount > 0.0
    case Ask => amount < 0.0
  }

  /** A record selected for a side, with its index label. */
  datatype Entry = Entry(index: nat, order: Order)

  /** A row of a finished side: the entry plus its `Cumulative` column. */
  datatype Row = Row(index: nat, order: Order, cumulative: real)

  function Abs(x: real): (r: real)
    ensures r >= 0.0
    ensures r == x || r == -x
  {
    if x < 0.0 then -x else x
  }

  /** `r` is exactly the records on `side`, each with its index label, in
      record order. */
  ghost predicate SelectsSide(r: seq<Entry>, records: seq<Order>, side: Side) {
    && (forall i :: 0 <= i < |r| ==>
          r[i].index < |records| && r[i].order == records[r[i].index] && OnSide(side, r[i].order.amount))
    && (forall i, j :: 0 <= i < j < |r| ==> r[i].index < r[j].index)
    && (forall k :: 0 <= k < |records| && OnSide(side, records[k].amount) ==>
          exists i :: 0 <= i < |r| && r[i].index == k)
  }

  /** A record off `side` leaves the selection as it was. */
  lemma SelectsSideSkip(records: seq<Order>, side: Side, init: seq<Entry>)
    requires |records| > 0 && !OnSide(side, records[|records| - 1].amount)
    requires SelectsSide(init, records[..|records| - 1], side)
    ensures SelectsSide(init, records, side)
  {
    var n := |records| - 1;
    var head := records[..n];
    forall i | 0 <= i < |init|
      ensures init[i].order == records[init[i].index]
    {
      assert head[init[i].index] == records[init[i].index];
    }
    forall k | 0 <= k < |records| && OnSide(side, records[k].amount)
      ensures exists i :: 0 <= i < |init| && init[i].index == k
    {
      assert head[k] == records[k];
    }
  }

  /** A record on `side` is appended with its index label. */
  lemma SelectsSideAppend(records: seq<Order>, side: Side, init: seq<Entry>)
    requires |records| > 0 && OnSide(side, records[|records| - 1].amount)
    requires SelectsSide(init, records[..|records| - 1], side)
    ensures SelectsSide(init + [Entry(|records| - 1, records[|records| - 1])], records, side)
  {
    var n := |records| - 1;
    var head := records[..n];
    var r := init + [Entry(n, records[n])];
    forall i | 0 <= i < |r|
      ensures r[i].index < |records| && r[i].order == records[r[i].index] && OnSide(side, r[i].order.amount)
    {
      if i < |init| {
        assert r[i] == init[i];
        assert head[init[i].index] == records[init[i].index];
      }
    }
    forall i, j | 0 <= i < j < |r|
      ensures r[i].index < r[j].index
    {
      assert r[i] == init[i];
    }
    forall k | 0 <= k < |records| && OnSide(side, records[k].amount)
      ensures exists i :: 0 <= i < |r| && r[i].index == k
    {
      if k < n {
        assert head[k] == records[k];
        var i :| 0 <= i < |init| && init[i].index == k;
        assert r[i] == init[i];
      } else {
        assert r[|r| - 1].index == n;
      }
    }
  }

  /** The boolean-mask selection of one side, in record order. */
  function Select(records: seq<Order>, side: Side): (r: seq<Entry>)
    ensures |r| <= |records|
    ensures SelectsSide(r, records, side)
    decreases |records|
  {
    if |records| == 0 then []
    else
      var n := |records| - 1;
      var init := Select(records[..n], side);
      if OnSide(side, records[n].amount) then
        SelectsSideAppend(records, side, init);
        init + [Entry(n, records[n])]
      else
        SelectsSideSkip(records, side, init);
        init
  }

  /** The `abs()` applied to the amount column of a side. */
  function AbsAmounts(rows: seq<Entry>): (r: seq<Entry>)
    ensures |r| == |rows|
    ensures forall i :: 0 <= i < |r| ==>
      r[i].index == rows[i].index &&
      r[i].order == rows[i].order.(amount := Abs(rows[i].order.amount))
  {
    if |rows| == 0 then []
    else
      var e := rows[0];
      [e.(order := e.order.(amount := Abs(e.order.amount)))] + AbsAmounts(rows[1..])
  }

  function Sum(xs: seq<real>): real {
    if |xs| == 0 then 0.0 else xs[0] + Sum(xs[1..])
  }

  /** The amount column of a side. */
  function Amounts(rows: seq<Entry>): (r: seq<real>)
    ensures |r| == |rows|
    ensures forall i :: 0 <= i < |rows| ==> r[i] == rows[i].order.amount
  {
    if |rows| == 0 then [] else [rows[0].order.amount] + Amounts(rows[1..])
  }

  /** `cumsum()` of the amount column, starting from the running total `acc`. */
  function CumsumFrom(rows: seq<Entry>, acc: real): (r: seq<Row>)
    ensures |r| == |rows|
    ensures forall i :: 0 <= i < |r| ==>
      r[i].index == rows[i].index && r[i].order == rows[i].order &&
      r[i].cumulative == acc + Sum(Amounts(rows)[..i + 1])
    decreases |rows|
  {
    if |rows| == 0 then []
    else
      var c := acc + rows[0].order.amount;
      var r := [Row(rows[0].index, rows[0].order, c)] + CumsumFrom(rows[1..], c);
      assert forall i :: 1 <= i < |r| ==>
        Sum(Amounts(rows)[..i + 1]) == rows[0].order.amount + Sum(Amounts(rows[1..])[..i])
      by {
        forall i | 1 <= i < |r|
          ensures Sum(Amounts(rows)[..i + 1]) == rows[0].order.amount + Sum(Amounts(rows[1..])[..i])
        {
          assert Amounts(rows)[..i + 1][1..] == Amounts(rows[1..])[..i];
        }
      }
      assert Amounts(rows)[..1] == [rows[0].order.amount];
      r
  }

  function Cumsum(rows: seq<Entry>): seq<Row> {
    CumsumFrom(rows, 0.0)
  }

  /** No record is both a bid and an ask. */
  lemma SidesDisjoint(records: seq<Order>, i: nat, j: nat)
    requires i < |Select(records, Bid)| && j < |Select(records, Ask)|
    ensures Select(records, Bid)[i].index != Select(records, Ask)[j].index
  {
  }

  /** A record with a zero amount is on neither side. */
  lemma ZeroAmountOnNeitherSide(records: seq<Order>, side: Side, i: nat)
    requires i < |Select(records, side)|
    ensures records[Select(records, side)[i].index].amount != 0.0
  {
  }

  /** The number of records with a zero amount. */
  function ZeroCount(records: seq<Order>): (r: nat)
    ensures r <= |records|
  {
    if |records| == 0 then 0
    else ZeroCount(records[..|records| - 1]) + (if records[|records| - 1].amount == 0.0 then 1 else 0)
  }

  lemma {:induction false} ZeroCountIsZero(records: seq<Order>)
    ensures ZeroCount(records) == 0 <==> forall k :: 0 <= k < |records| ==> records[k].amount != 0.0
    decreases |records|
  {
    if |records| > 0 {
      var n := |records| - 1;
      var head := records[..n];
      ZeroCountIsZero(head);
      assert forall k :: 0 <= k < n ==> head[k] == records[k];
    }
  }

  /** Every record lands on exactly one side or is a zero-amount record. */
  lemma {:induction false} SideSizes(records: seq<Order>)
    ensures |Select(records, Bid)| + |Select(records, Ask)| + ZeroCount(records) == |records|
    decreases |records|
  {
    if |records| > 0 {
      SideSizes(records[..|records| - 1]);
    }
  }

  /** The two sides together hold at most the parsed records, and all of
      them exactly when no record has a zero amount. */
  lemma SidesCoverRecords(records: seq<Order>)
    ensures |Select(records, Bid)| + |Select(records, Ask)| <= |records|
    ensures |Select(records, Bid)| + |Select(records, Ask)| == |records| <==>
      forall k :: 0 <= k < |records| ==> records[k].amount != 0.0
  {
    SideSizes(records);
    ZeroCountIsZero(records);
  }

  /** After `abs()`, every ask amount is the magnitude of the original
      negative amount, hence positive; rate, period and orders are kept. */
  lemma AskAmountsPositive(records: seq<Order>)
    ensures forall i :: 0 <= i < |AbsAmounts(Select(records, Ask))| ==>
      var e := AbsAmounts(Select(records, Ask))[i];
      var o := records[e.index];
      && e.order.amount > 0.0 && e.order.amount == -o.amount
      && e.order.rate == o.rate && e.order.period == o.period && e.order.orders == o.orders
  {
  }

  lemma {:induction false} SumSnoc(xs: seq<real>, x: real)
    ensures Sum(xs + [x]) == Sum(xs) + x
    decreases |xs|
  {
    if |xs| > 0 {
      assert (xs + [x])[1..] == xs[1..] + [x];
      SumSnoc(xs[1..], x);
    }
  }

  lemma PrefixSumStep(xs: seq<real>, i: nat)
    requires 0 < i < |xs|
    ensures Sum(xs[..i + 1]) == Sum(xs[..i]) + xs[i]
  {
    assert xs[..i + 1] == xs[..i] + [xs[i]];
    SumSnoc(xs[..i], xs[i]);
  }

  /** The running total grows by exactly each row's amount, so the amount
      column can be read back from the `Cumulative` column. */
  lemma CumulativeSteps(rows: seq<Entry>)
    ensures |rows| > 0 ==> Cumsum(rows)[0].cumulative == rows[0].order.amount
    ensures forall i :: 0 < i < |rows| ==>
      Cumsum(rows)[i].cumulative == Cumsum(rows)[i - 1].cumulative + rows[i].order.amount
  {
    var r := Cumsum(rows);
    var a := Amounts(rows);
    if |rows| > 0 {
      assert a[..1] == [a[0]];
    }
    forall i | 0 < i < |rows|
      ensures r[i].cumulative == r[i - 1].cumulative + rows[i].order.amount
    {
      PrefixSumStep(a, i);
    }
  }

  lemma {:induction false} StepsIncrease(r: seq<Row>, i: nat, j: nat)
    requires forall k :: 0 < k < |r| ==> r[k - 1].cumulative < r[k].cumulative
    requires i < j < |r|
    ensures r[i].cumulative < r[j].cumulative
    decreases j - i
  {
    if i + 1 < j {
      StepsIncrease(r, i, j - 1);
    }
  }

  /** With positive amounts the `Cumulative` column strictly increases. */
  lemma CumulativeIncreasing(rows: seq<Entry>)
    requires forall i :: 0 <= i < |rows| ==> rows[i].order.amount > 0.0
    ensures forall i, j :: 0 <= i < j < |rows| ==> Cumsum(rows)[i].cumulative < Cumsum(rows)[j].cumulative
  {
    var r := Cumsum(rows);
    CumulativeSteps(rows);
    assert forall k :: 0 < k < |r| ==> r[k - 1].cumulative < r[k].cumulative;
    forall i, j | 0 <= i < j < |rows|
      ensures r[i].cumulative < r[j].cumulative
    {
      StepsIncrease(r, i, j);
    }
  }

  /** The last `Cumulative` entry is the side's total amount. */
  lemma CumulativeEndsAtTotal(rows: seq<Entry>)
    requires |rows| > 0
    ensures Cumsum(rows)[|rows| - 1].cumulative == Sum(Amounts(rows))
  {
    assert Amounts(rows)[..|rows|] == Amounts(rows);
  }

  /** The total magnitude of the records on `side`. */
  function SideTotal(records: seq<Order>, side: Side): (r: real)
    ensures r >= 0.0
  {
    if |records| == 0 then 0.0
    else
      var last := records[|records| - 1];
      SideTotal(records[..|records| - 1], side) + (if OnSide(side, last.amount) then Abs(last.amount) else 0.0)
  }

  lemma AmountsSnoc(rows: seq<Entry>, e: Entry)
    ensures Amounts(rows + [e]) == Amounts(rows) + [e.order.amount]
  {
    var l := Amounts(rows + [e]);
    var r := Amounts(rows) + [e.order.amount];
    assert |l| == |r|;
    forall i | 0 <= i < |l|
      ensures l[i] == r[i]
    {
      assert (rows + [e])[i] == if i < |rows| then rows[i] else e;
    }
  }

  lemma AbsAmountsSnoc(rows: seq<Entry>, e: Entry)
    ensures AbsAmounts(rows + [e]) == AbsAmounts(rows) + [e.(order := e.order.(amount := Abs(e.order.amount)))]
  {
    var l := AbsAmounts(rows + [e]);
    var r := AbsAmounts(rows) + [e.(order := e.order.(amount := Abs(e.order.amount)))];
    assert |l| == |r|;
    forall i | 0 <= i < |l|
      ensures l[i] == r[i]
    {
      assert (rows + [e])[i] == if i < |rows| then rows[i] else e;
    }
  }

  lemma MagnitudeSumSnoc(rows: seq<Entry>, e: Entry)
    ensures Sum(Amounts(AbsAmounts(rows + [e]))) == Sum(Amounts(AbsAmounts(rows))) + Abs(e.order.amount)
  {
    var e' := e.(order := e.order.(amount := Abs(e.order.amount)));
    AbsAmountsSnoc(rows, e);
    AmountsSnoc(AbsAmounts(rows), e');
    SumSnoc(Amounts(AbsAmounts(rows)), Abs(e.order.amount));
  }

  /** One unfolding of `Select`, stated on its own. */
  lemma SelectLast(records: seq<Order>, side: Side)
    requires |records| > 0
    ensures var n := |records| - 1;
      Select(records, side) ==
        if OnSide(side, records[n].amount) then Select(records[..n], side) + [Entry(n, records[n])]
        else Select(records[..n], side)
  {
  }

  /** Summing the magnitudes of a side's selection gives the side total. */
  lemma {:induction false} SelectTotal(records: seq<Order>, side: Side)
    ensures Sum(Amounts(AbsAmounts(Select(records, side)))) == SideTotal(records, side)
    decreases |records|
  {
    if |records| > 0 {
      var n := |records| - 1;
      var head := records[..n];
      var last := records[n];
      SelectTotal(head, side);
      SelectLast(records, side);
      var init := Select(head, side);
      if OnSide(side, last.amount) {
        MagnitudeSumSnoc(init, Entry(n, last));
      }
      assert SideTotal(records, side) ==
        SideTotal(head, side) + (if OnSide(side, last.amount) then Abs(last.amount) else 0.0);
    }
  }

  /** `abs()` does nothing to the bid side. */
  lemma BidsArePositive(records: seq<Order>)
    ensures AbsAmounts(Select(records, Bid)) == Select(records, Bid)
  {
    var sel := Select(records, Bid);
    var a := AbsAmounts(sel);
    assert |a| == |sel|;
    forall i | 0 <= i < |a|
      ensures a[i] == sel[i]
    {
      assert sel[i].order.amount > 0.0;
    }
  }
}

=== FILE: funding_book.dfy ===
/** `fetch_funding_orderbook` without its HTTP request: from the decoded JSON
    payload to the pair of depth frames, or to `(None, None)`. */
module FundingBook {
  import opened Options
  import opened PyJson
  import opened Records
  import opened Depth

  /** The two frames the function returns when it does not return `(None, None)`. */
  datatype Book = Book(bids: seq<Row>, asks: seq<Row>)

  /** The split, `abs()` and `cumsum()` applied to the parsed records.
      Bids are exactly the positive-amount records and asks exactly the
      negative-amount ones, each side in record order with magnitude amounts
      and a running sum. */
  function SplitBook(records: seq<Order>): (r: Book)
    ensures DepthSide(r.bids, records, Bid)
    ensures DepthSide(r.asks, records, Ask)
  {
    var bids := Select(records, Bid);
    var asks := AbsAmounts(Select(records, Ask));
    BidsAreOwnMagnitudes(records);
    CumsumKeepsSelection(records, Bid, bids);
    CumsumIsRunningSum(bids);
    CumsumKeepsSelection(records, Ask, asks);
    CumsumIsRunningSum(asks);
    Book(Cumsum(bids), Cumsum(asks))
  }

  /** The first guard: `data` must be truthy and a list, i.e. a non-empty array. */
  predicate NonEmptyList(data: Json) {
    data.Arr? && |data.items| > 0
  }

  /** The pure part of `fetch_funding_orderbook`; `None` is `(None, None)`.
      It answers `None` exactly when the payload is not a list, when some
      tuple is a JSON object (its uncaught `KeyError`), or when no tuple
      parses; otherwise it returns both frames, either of which may be empty. */
  function FetchFundingOrderbook(data: Json): (r: Option<Book>)
    ensures r.Some? <==>
      && data.Arr?
      && (forall j :: 0 <= j < |data.items| ==> !data.items[j].Obj?)
      && (exists j :: 0 <= j < |data.items| && ParseTuple(data.items[j]).Parsed?)
  {
    if !NonEmptyList(data) then None
    else
      SurvivorsNonEmpty(data.items);
      match ParseAll(data.items)
      case None => None
      case Some(records) => if |records| == 0 then None else Some(SplitBook(records))
  }

  function BookSide(book: Book, side: Side): seq<Row> {
    match side
    case Bid => book.bids
    case Ask => book.asks
  }

  /** A record as it appears on its side: the amount as a magnitude. */
  function Magnitude(o: Order): (r: Order)
    ensures r.amount >= 0.0 && (r.amount == o.amount || r.amount == -o.amount)
    ensures r.rate == o.rate && r.period == o.period && r.orders == o.orders
  {
    o.(amount := Abs(o.amount))
  }

  /** The rows are exactly the records on `side`, in record order, each
      with its index label and its amount as a magnitude. This is the
      row-level counterpart of `Depth.SelectsSide`, which speaks of the
      selection before `abs()`: it is stated on the returned rows themselves,
      so that the side specification mentions neither `Select` nor
      `AbsAmounts` and can serve as an independent description of a frame. */
  ghost predicate SideSelection(rows: seq<Row>, records: seq<Order>, side: Side) {
    && (forall i :: 0 <= i < |rows| ==>
          rows[i].index < |records| && OnSide(side, records[rows[i].index].amount) &&
          rows[i].order == Magnitude(records[rows[i].index]))
    && (forall i, j :: 0 <= i < j < |rows| ==> rows[i].index < rows[j].index)
    && (forall k :: 0 <= k < |records| && OnSide(side, records[k].amount) ==>
          exists i :: 0 <= i < |rows| && rows[i].index == k)
  }

  /** The `Cumulative` column starts at the first amount and grows by each
      next amount. */
  ghost predicate RunningSum(rows: seq<Row>) {
    && (|rows| > 0 ==> rows[0].cumulative == rows[0].order.amount)
    && (forall i :: 0 < i < |rows| ==>
          rows[i].cumulative == rows[i - 1].cumulative + rows[i].order.amount)
  }

  /** What one side of the book must be, stated without the split code. */
  ghost predicate DepthSide(rows: seq<Row>, records: seq<Order>, side: Side) {
    SideSelection(rows, records, side) && RunningSum(rows)
  }

  lemma CumsumIsRunningSum(e: seq<Entry>)
    ensures RunningSum(Cumsum(e))
  {
    CumulativeSteps(e);
  }

  /** `e` is the selection of `side`, with amounts as magnitudes. */
  ghost predicate MagnitudeCopy(e: seq<Entry>, records: seq<Order>, side: Side) {
    |e| == |Select(records, side)| &&
    forall i :: 0 <= i < |e| ==>
      e[i].index == Select(records, side)[i].index &&
      e[i].order == Magnitude(Select(records, side)[i].order)
  }

  lemma CumsumKeepsRecords(records: seq<Order>, side: Side, e: seq<Entry>)
    requires MagnitudeCopy(e, records, side)
    ensures forall i :: 0 <= i < |Cumsum(e)| ==>
      Cumsum(e)[i].index < |records| && OnSide(side, records[Cumsum(e)[i].index].amount) &&
      Cumsum(e)[i].order == Magnitude(records[Cumsum(e)[i].index])
  {
    var sel := Select(records, side);
    var rows := Cumsum(e);
    forall i | 0 <= i < |rows|
      ensures rows[i].index < |records| && OnSide(side, records[rows[i].index].amount)
      ensures rows[i].order == Magnitude(records[rows[i].index])
    {
      assert rows[i].index == sel[i].index && rows[i].order == e[i].order;
    }
  }

  lemma CumsumKeepsOrder(records: seq<Order>, side: Side, e: seq<Entry>)
    requires MagnitudeCopy(e, records, side)
    ensures forall i, j :: 0 <= i < j < |Cumsum(e)| ==> Cumsum(e)[i].index < Cumsum(e)[j].index
  {
    var sel := Select(records, side);
    var rows := Cumsum(e);
    forall i, j | 0 <= i < j < |rows|
      ensures rows[i].index < rows[j].index
    {
      assert rows[i].index == sel[i].index && rows[j].index == sel[j].index;
    }
  }

  lemma CumsumKeepsAll(records: seq<Order>, side: Side, e: seq<Entry>)
    requires MagnitudeCopy(e, records, side)
    ensures forall k :: 0 <= k < |records| && OnSide(side, records[k].amount) ==>
      exists i :: 0 <= i < |Cumsum(e)| && Cumsum(e)[i].index == k
  {
    var sel := Select(records, side);
    var rows := Cumsum(e);
    forall k | 0 <= k < |records| && OnSide(side, records[k].amount)
      ensures exists i :: 0 <= i < |rows| && rows[i].index == k
    {
      var i :| 0 <= i < |sel| && sel[i].index == k;
      assert rows[i].index == k;
    }
  }

  /** The running sum of a magnitude copy of a selection keeps the selection. */
  lemma CumsumKeepsSelection(records: seq<Order>, side: Side, e: seq<Entry>)
    requires MagnitudeCopy(e, records, side)
    ensures SideSelection(Cumsum(e), records, side)
  {
    CumsumKeepsRecords(records, side, e);
    CumsumKeepsOrder(records, side, e);
    CumsumKeepsAll(records, side, e);
  }

  /** The bid selection already has magnitude amounts. */
  lemma BidsAreOwnMagnitudes(records: seq<Order>)
    ensures MagnitudeCopy(Select(records, Bid), records, Bid)
  {
    var bids := Select(records, Bid);
    forall i | 0 <= i < |bids|
      ensures bids[i].order == Magnitude(bids[i].order)
    {
    }
  }

  /** A returned book has, on each side, exactly the parsed records of that
      side's sign, in record order, with magnitude amounts and a running sum. */
  lemma FetchMeetsDepthSide(data: Json)
    ensures FetchFundingOrderbook(data).Some? ==>
      && data.Arr?
      && DepthSide(FetchFundingOrderbook(data).value.bids, Survivors(data.items), Bid)
      && DepthSide(FetchFundingOrderbook(data).value.asks, Survivors(data.items), Ask)
  {
  }

  /** Both sides are the running sum of the side's selection with `abs()`
      applied; on the bid side the `abs()` changes nothing. */
  lemma SideIsCumsumOfMagnitudes(records: seq<Order>, side: Side)
    ensures BookSide(SplitBook(records), side) == Cumsum(AbsAmounts(Select(records, side)))
  {
    BidsArePositive(records);
  }

  /** Every amount on either side is positive. */
  lemma SplitAmountsPositive(records: seq<Order>, side: Side)
    ensures forall i :: 0 <= i < |BookSide(SplitBook(records), side)| ==>
      BookSide(SplitBook(records), side)[i].order.amount > 0.0
  {
    var e := AbsAmounts(Select(records, side));
    SideIsCumsumOfMagnitudes(records, side);
    var rows := Cumsum(e);
    forall i | 0 <= i < |rows|
      ensures rows[i].order.amount > 0.0
    {
      assert rows[i].order == e[i].order;
    }
  }

  lemma MagnitudeSumIncreasing(records: seq<Order>, side: Side)
    ensures forall i, j :: 0 <= i < j < |Cumsum(AbsAmounts(Select(records, side)))| ==>
      Cumsum(AbsAmounts(Select(records, side)))[i].cumulative
        < Cumsum(AbsAmounts(Select(records, side)))[j].cumulative
  {
    var e := AbsAmounts(Select(records, side));
    assert forall i :: 0 <= i < |e| ==> e[i].order.amount > 0.0;
    CumulativeIncreasing(e);
  }

  /** The `Cumulative` column of either side is strictly increasing. */
  lemma SplitCumulativeIncreasing(records: seq<Order>, side: Side)
    ensures forall i, j :: 0 <= i < j < |BookSide(SplitBook(records), side)| ==>
      BookSide(SplitBook(records), side)[i].cumulative < BookSide(SplitBook(records), side)[j].cumulative
  {
    SideIsCumsumOfMagnitudes(records, side);
    MagnitudeSumIncreasing(records, side);
  }

  /** The last `Cumulative` entry of a side is the total magnitude of the
      records on that side. */
  lemma SplitCumulativeTotal(records: seq<Order>, side: Side)
    ensures |BookSide(SplitBook(records), side)| > 0 ==>
      BookSide(SplitBook(records), side)[|BookSide(SplitBook(records), side)| - 1].cumulative
        == SideTotal(records, side)
  {
    var e := AbsAmounts(Select(records, side));
    SideIsCumsumOfMagnitudes(records, side);
    if |e| > 0 {
      CumulativeEndsAtTotal(e);
      SelectTotal(records, side);
    }
  }

  /** The two sides hold at most the parsed records between them, and all of
      them exactly when no parsed record has a zero amount. */
  lemma SplitSizes(records: seq<Order>)
    ensures |SplitBook(records).bids| + |SplitBook(records).asks| <= |records|
    ensures |SplitBook(records).bids| + |SplitBook(records).asks| == |records| <==>
      forall k :: 0 <= k < |records| ==> records[k].amount != 0.0
  {
    SidesCoverRecords(records);
  }

  /** The index labels of a side, in row order. */
  function Labels(rows: seq<Row>): (r: seq<nat>)
    ensures |r| == |rows|
    ensures forall i :: 0 <= i < |rows| ==> r[i] == rows[i].index
  {
    seq(|rows|, i requires 0 <= i < |rows| => rows[i].index)
  }

  ghost predicate Increasing(a: seq<nat>) {
    forall i, j :: 0 <= i < j < |a| ==> a[i] < a[j]
  }

  lemma FirstIsMember(b: seq<nat>)
    ensures |b| == 0 || b[0] in b
  {
  }

  /** Two strictly increasing sequences with the same elements are equal. */
  lemma {:induction false} IncreasingSameElements(a: seq<nat>, b: seq<nat>)
    requires Increasing(a) && Increasing(b)
    requires forall x :: x in a <==> x in b
    ensures a == b
    decreases |a|
  {
    if |a| == 0 {
      FirstIsMember(b);
    } else {
      assert a[0] in b;
      assert b[0] in a;
      var i :| 0 <= i < |b| && b[i] == a[0];
      var j :| 0 <= j < |a| && a[j] == b[0];
      assert a[0] <= a[j] && b[0] <= b[i];
      forall x
        ensures x in a[1..] <==> x in b[1..]
      {
        if x in a[1..] {
          var k :| 1 <= k < |a| && a[k] == x;
          assert x in b && x != b[0];
        }
        if x in b[1..] {
          var k :| 1 <= k < |b| && b[k] == x;
          assert x in a && x != a[0];
        }
      }
      IncreasingSameElements(a[1..], b[1..]);
      assert a == [a[0]] + a[1..] && b == [b[0]] + b[1..];
    }
  }

  lemma {:induction false} RunningSumsAgree(r1: seq<Row>, r2: seq<Row>, i: nat)
    requires RunningSum(r1) && RunningSum(r2) && |r1| == |r2|
    requires forall k :: 0 <= k < |r1| ==> r1[k].order == r2[k].order
    requires i < |r1|
    ensures r1[i].cumulative == r2[i].cumulative
  {
    if i > 0 {
      RunningSumsAgree(r1, r2, i - 1);
    }
  }

  /** Every label of one selection of `side` is a label of any other. */
  lemma LabelsCovered(r1: seq<Row>, r2: seq<Row>, records: seq<Order>, side: Side, x: nat)
    requires SideSelection(r1, records, side) && SideSelection(r2, records, side)
    requires x in Labels(r1)
    ensures x in Labels(r2)
  {
    var l1 := Labels(r1);
    var i :| 0 <= i < |l1| && l1[i] == x;
    assert r1[i].index == x;
    var k :| 0 <= k < |r2| && r2[k].index == x;
    assert Labels(r2)[k] == x;
  }

  /** The side specification leaves no freedom: at most one sequence of rows
      meets it, so the frames built by the split are THE sides it describes. */
  lemma DepthSideUnique(r1: seq<Row>, r2: seq<Row>, records: seq<Order>, side: Side)
    requires DepthSide(r1, records, side) && DepthSide(r2, records, side)
    ensures r1 == r2
  {
    var l1 := Labels(r1);
    var l2 := Labels(r2);
    forall x
      ensures x in l1 <==> x in l2
    {
      if x in l1 {
        LabelsCovered(r1, r2, records, side, x);
      }
      if x in l2 {
        LabelsCovered(r2, r1, records, side, x);
      }
    }
    IncreasingSameElements(l1, l2);
    forall i | 0 <= i < |r1|
      ensures r1[i] == r2[i]
    {
      assert l1[i] == l2[i];
      RunningSumsAgree(r1, r2, i);
    }
  }

  /** The split of the worked example's records. */
  lemma ExampleSplit()
    ensures SplitBook([Order(0.02, 1000.0, 2, 5.0), Order(0.03, -500.0, 30, 3.0), Order(0.01, 0.0, 2, 1.0)])
         == Book([Row(0, Order(0.02, 1000.0, 2, 5.0), 1000.0)],
                 [Row(1, Order(0.03, 500.0, 30, 3.0), 500.0)])
  {
    var o0 := Order(0.02, 1000.0, 2, 5.0);
    var o1 := Order(0.03, -500.0, 30, 3.0);
    var o3 := Order(0.01, 0.0, 2, 1.0);
    var records := [o0, o1, o3];
    assert records[..2] == [o0, o1] && records[..2][..1] == [o0] && records[..2][..1][..0] == [];
    assert Select([o0], Bid) == [Entry(0, o0)];
    assert Select([o0, o1], Bid) == [Entry(0, o0)];
    assert Select(records, Bid) == [Entry(0, o0)];
    assert Select([o0], Ask) == [];
    assert Select([o0, o1], Ask) == [Entry(1, o1)];
    assert Select(records, Ask) == [Entry(1, o1)];
    assert AbsAmounts([Entry(1, o1)]) == [Entry(1, o1.(amount := 500.0))];
    assert Amounts([Entry(0, o0)])[..1] == [1000.0];
    assert Amounts([Entry(1, o1.(amount := 500.0))])[..1] == [500.0];
  }

  /** The four entries of the worked example: three offers and a `null`. */
  function ExampleTuples(): seq<Json> {
    [Arr([Num(0.0002), Num(2.0), Num(1000.0), Num(5.0)]),
     Arr([Num(0.0003), Num(30.0), Num(-500.0), Num(3.0)]),
     Null,
     Arr([Num(0.0001), Num(2.0), Num(0.0), Num(1.0)])]
  }

  /** The worked example's tuples, taken one by one. */
  lemma ExampleOutcomes()
    ensures ParseTuple(ExampleTuples()[0]) == Parsed(Order(0.02, 1000.0, 2, 5.0))
    ensures ParseTuple(ExampleTuples()[1]) == Parsed(Order(0.03, -500.0, 30, 3.0))
    ensures ParseTuple(ExampleTuples()[2]) == Skipped
    ensures ParseTuple(ExampleTuples()[3]) == Parsed(Order(0.01, 0.0, 2, 1.0))
  {
    NumericTuple(0.0002, 2.0, 1000.0, 5.0, []);
    NumericTuple(0.0003, 30.0, -500.0, 3.0, []);
    NumericTuple(0.0001, 2.0, 0.0, 1.0, []);
    assert [Num(0.0002), Num(2.0), Num(1000.0), Num(5.0)] + [] == ExampleTuples()[0].items;
    assert [Num(0.0003), Num(30.0), Num(-500.0), Num(3.0)] + [] == ExampleTuples()[1].items;
    assert [Num(0.0001), Num(2.0), Num(0.0), Num(1.0)] + [] == ExampleTuples()[3].items;
  }

  /** The `null` entry is skipped; the other three tuples parse, in order. */
  lemma ExampleRecords()
    ensures Survivors(ExampleTuples())
         == [Order(0.02, 1000.0, 2, 5.0), Order(0.03, -500.0, 30, 3.0), Order(0.01, 0.0, 2, 1.0)]
  {
    var items := ExampleTuples();
    var outs := Outcomes(items);
    ExampleOutcomes();
    var o0 := Order(0.02, 1000.0, 2, 5.0);
    var o1 := Order(0.03, -500.0, 30, 3.0);
    var o3 := Order(0.01, 0.0, 2, 1.0);
    assert outs[..3][..2][..1][..0] == [];
    assert Kept(outs[..3][..2][..1]) == [o0];
    assert Kept(outs[..3][..2]) == [o0, o1];
    assert Kept(outs[..3]) == [o0, o1];
    assert Kept(outs) == [o0, o1, o3];
  }

  /** A worked payload: a bid, an ask, a `null` entry and a zero-amount
      offer. The `null` is skipped, the zero offer is parsed but lands on
      neither side, and each side keeps its index label in the parsed list. */
  lemma ExamplePayload()
    ensures FetchFundingOrderbook(Arr(ExampleTuples()))
         == Some(Book([Row(0, Order(0.02, 1000.0, 2, 5.0), 1000.0)],
                      [Row(1, Order(0.03, 500.0, 30, 3.0), 500.0)]))
  {
    var items := ExampleTuples();
    var records := [Order(0.02, 1000.0, 2, 5.0), Order(0.03, -500.0, 30, 3.0), Order(0.01, 0.0, 2, 1.0)];
    ExampleRecords();
    assert !HasObject(items) by {
      assert items[0].Arr? && items[1].Arr? && items[2].Null? && items[3].Arr?;
    }
    assert ParseAll(items) == Some(records);
    ExampleSplit();
  }
}

=== FILE: numtext.dfy ===
/** Decimal text as accepted by Python's `float(str)` and `int(str)`.

    Only the plain decimal subset is modelled: an optional sign, digits, and
    (for `float`) at most one decimal point with at least one digit overall.
    Surrounding whitespace, `_` digit separators, exponents and the words
    `inf`/`nan` are not modelled. */
module NumText {
  import opened Options

  predicate IsDigit(c: char) {
    '0' <= c <= '9'
  }

  predicate AllDigits(s: string) {
    forall i :: 0 <= i < |s| ==> IsDigit(s[i])
  }

  /** The value of a run of decimal digits, most significant first. */
  function DigitsValue(s: string): nat
    requires AllDigits(s)
  {
    if |s| == 0 then 0
    else DigitsValue(s[..|s| - 1]) * 10 + (s[|s| - 1] as int - '0' as int)
  }

  function Pow10(n: nat): (r: nat)
    ensures r >= 1
  {
    if n == 0 then 1 else 10 * Pow10(n - 1)
  }

  /** Position of the first '.' in `s`, or `|s|` when there is none. */
  function DotIndex(s: string): (d: nat)
    ensures d <= |s|
    ensures d < |s| ==> s[d] == '.'
    ensures forall i :: 0 <= i < d ==> s[i] != '.'
  {
    if |s| == 0 then 0
    else if s[0] == '.' then 0
    else 1 + DotIndex(s[1..])
  }

  /** Splits off a leading '+' or '-'; the boolean says whether it was '-'. */
  function SplitSign(s: string): (r: (bool, string))
    ensures |r.1| <= |s|
    ensures r.1 == s || r.1 == s[1..]
  {
    if |s| > 0 && (s[0] == '+' || s[0] == '-') then (s[0] == '-', s[1..]) else (false, s)
  }

  /** Python `int(s)` on decimal text: `None` stands for the `ValueError`. */
  function ParseIntText(s: string): (r: Option<int>)
    ensures r.Some? <==> |SplitSign(s).1| > 0 && AllDigits(SplitSign(s).1)
  {
    var (negative, body) := SplitSign(s);
    if |body| > 0 && AllDigits(body) then
      var n: int := DigitsValue(body);
      Some(if negative then -n else n)
    else None
  }

  /** The value of the digits `frac` written after a decimal point. */
  function Fraction(frac: string): (r: real)
    requires AllDigits(frac)
    ensures 0.0 <= r
  {
    DigitsValue(frac) as real / Pow10(|frac|) as real
  }

  /** An unsigned decimal `digits`, `digits.`, `.digits` or `digits.digits`. */
  function UnsignedDecimal(body: string): (r: Option<real>)
    ensures r.Some? ==> |body| > 0 && r.value >= 0.0
  {
    var d := DotIndex(body);
    var whole := body[..d];
    var frac := if d < |body| then body[d + 1..] else [];
    if AllDigits(whole) && AllDigits(frac) && |whole| + |frac| > 0 then
      Some(DigitsValue(whole) as real + Fraction(frac))
    else None
  }

  /** Python `float(s)` on decimal text: `None` stands for the `ValueError`.
      Accepted text has something after its sign, and the sign decides on
      which side of zero the value lies. */
  function ParseFloatText(s: string): (r: Option<real>)
    ensures r.Some? ==> |SplitSign(s).1| > 0
    ensures r.Some? && SplitSign(s).0 ==> r.value <= 0.0
    ensures r.Some? && !SplitSign(s).0 ==> r.value >= 0.0
  {
    var (negative, body) := SplitSign(s);
    match UnsignedDecimal(body)
    case None => None
    case Some(x) => Some(if negative then -x else x)
  }

  lemma AllDigitsConcat(a: string, b: string)
    requires AllDigits(a) && AllDigits(b)
    ensures AllDigits(a + b)
  {
    forall i | 0 <= i < |a + b|
      ensures IsDigit((a + b)[i])
    {
      if i >= |a| {
        assert (a + b)[i] == b[i - |a|];
      }
    }
  }

  lemma ShiftOnePlace(x: int, p: int, y: int, d: int)
    ensures (x * p + y) * 10 + d == x * (10 * p) + (y * 10 + d)
  {
  }

  /** Positional notation: the digits of `a` followed by those of `b` are
      worth `a` shifted left by `|b|` places, plus `b`. */
  lemma {:induction false} DigitsValueConcat(a: string, b: string)
    requires AllDigits(a) && AllDigits(b)
    ensures AllDigits(a + b)
    ensures DigitsValue(a + b) == DigitsValue(a) * Pow10(|b|) + DigitsValue(b)
    decreases |b|
  {
    AllDigitsConcat(a, b);
    if |b| == 0 {
      assert a + b == a;
    } else {
      var b' := b[..|b| - 1];
      var d := b[|b| - 1] as int - '0' as int;
      assert (a + b)[..|a + b| - 1] == a + b';
      assert (a + b)[|a + b| - 1] == b[|b| - 1];
      DigitsValueConcat(a, b');
      assert DigitsValue(a + b) == DigitsValue(a + b') * 10 + d;
      assert DigitsValue(b) == DigitsValue(b') * 10 + d;
      assert Pow10(|b|) == 10 * Pow10(|b'|);
      ShiftOnePlace(DigitsValue(a), Pow10(|b'|), DigitsValue(b'), d);
    }
  }

  lemma DigitsHaveNoDot(s: string)
    requires AllDigits(s)
    ensures DotIndex(s) == |s|
  {
    if DotIndex(s) < |s| {
      assert IsDigit(s[DotIndex(s)]);
    }
  }

  /** Text that `int` accepts, `float` accepts too, with the same value:
      in Python `float("12") == 12.0` and `float("-7") == -7.0`. */
  lemma IntTextIsFloatText(s: string)
    requires ParseIntText(s).Some?
    ensures ParseFloatText(s) == Some(ParseIntText(s).value as real)
  {
    var (negative, body) := SplitSign(s);
    DigitsHaveNoDot(body);
    assert body[..|body|] == body;
  }

  /** A decimal point makes text unacceptable to `int` (`int("1.5")` raises). */
  lemma DotRejectedByInt(s: string)
    requires DotIndex(SplitSign(s).1) < |SplitSign(s).1|
    ensures ParseIntText(s).None?
  {
    var body := SplitSign(s).1;
    assert !IsDigit(body[DotIndex(body)]);
  }

  /** A single digit is read by both conversions as its own value. */
  lemma SingleDigitText(c: char)
    requires IsDigit(c)
    ensures ParseIntText([c]) == Some(c as int - '0' as int)
    ensures ParseFloatText([c]) == Some((c as int - '0' as int) as real)
  {
    assert SplitSign([c]) == (false, [c]);
    assert [c][..0] == [];
    assert DigitsValue([c]) == c as int - '0' as int;
    IntTextIsFloatText([c]);
  }

  /** Appending a digit to text that `int` accepts shifts its value one place
      and adds the digit, away from zero on the side of the sign. With
      `SingleDigitText`, `NegatedIntText` and `PlusIntText` this fixes the
      value of every accepted text. */
  lemma IntTextAppendDigit(s: string, c: char)
    requires ParseIntText(s).Some? && IsDigit(c)
    ensures ParseIntText(s + [c]) ==
      Some(10 * ParseIntText(s).value
           + (if SplitSign(s).0 then -(c as int - '0' as int) else c as int - '0' as int))
  {
    var body := SplitSign(s).1;
    assert (s + [c])[0] == s[0];
    if body == s {
      assert SplitSign(s + [c]).1 == body + [c];
    } else {
      assert (s + [c])[1..] == s[1..] + [c];
      assert SplitSign(s + [c]).1 == body + [c];
    }
    assert (body + [c])[..|body|] == body;
    assert AllDigits(body + [c]);
  }

  /** A leading '-' negates the value of unsigned digit text. */
  lemma NegatedIntText(t: string)
    requires |t| > 0 && AllDigits(t)
    ensures ParseIntText("-" + t) == Some(-ParseIntText(t).value)
  {
    assert !IsDigit('-') && !IsDigit('+');
    assert SplitSign(t) == (false, t) by {
      assert IsDigit(t[0]);
    }
    assert ("-" + t)[1..] == t;
  }

  /** A leading '+' leaves the value of unsigned digit text unchanged. */
  lemma PlusIntText(t: string)
    requires |t| > 0 && AllDigits(t)
    ensures ParseIntText("+" + t) == ParseIntText(t)
  {
    assert SplitSign(t) == (false, t) by {
      assert IsDigit(t[0]);
    }
    assert ("+" + t)[1..] == t;
  }

  /** A sign in front of unsigned decimal text: '+' changes nothing, and '-'
      is accepted exactly when the text is, negating its value
      (`float("-1.5") == -1.5`). */
  lemma SignedFloatText(t: string)
    requires |t| > 0 && (IsDigit(t[0]) || t[0] == '.')
    ensures ParseFloatText("+" + t) == ParseFloatText(t)
    ensures ParseFloatText("-" + t).Some? <==> ParseFloatText(t).Some?
    ensures ParseFloatText("-" + t).Some? ==>
      ParseFloatText("-" + t).value == -ParseFloatText(t).value
  {
    UnsignedText(t);
    assert ("+" + t)[1..] == t;
    assert ("-" + t)[1..] == t;
  }

  /** Without a decimal point, `float` accepts exactly the text `int`
      accepts (and `IntTextIsFloatText` gives the same value). */
  lemma NoDotFloatIsInt(s: string)
    requires DotIndex(SplitSign(s).1) == |SplitSign(s).1|
    ensures ParseFloatText(s).Some? <==> ParseIntText(s).Some?
  {
    var body := SplitSign(s).1;
    assert body[..|body|] == body;
  }

  /** In `w.f` with a digit run `w`, the first '.' is the one after `w`. */
  lemma DotAfterDigits(w: string, f: string)
    requires AllDigits(w)
    ensures DotIndex(w + "." + f) == |w|
  {
    assert (w + "." + f)[|w|] == '.';
  }

  lemma ScaleDown(x: int, y: int, p: int)
    requires p >= 1
    ensures (x * p + y) as real / p as real == x as real + y as real / p as real
  {
  }

  /** Text with a '.' whose two sides are digit runs, not both empty, is
      read as the whole part plus the fraction. */
  lemma UnsignedWithDot(body: string)
    requires DotIndex(body) < |body|
    requires AllDigits(body[..DotIndex(body)]) && AllDigits(body[DotIndex(body) + 1..])
    requires |body| > 1
    ensures UnsignedDecimal(body).Some?
    ensures UnsignedDecimal(body).value ==
      DigitsValue(body[..DotIndex(body)]) as real + Fraction(body[DotIndex(body) + 1..])
  {
  }

  /** The unsigned reading of `w.f`: the whole part plus the scaled fraction. */
  lemma UnsignedPointText(w: string, f: string)
    requires AllDigits(w) && AllDigits(f) && |w| + |f| > 0
    ensures UnsignedDecimal(w + "." + f).Some?
    ensures UnsignedDecimal(w + "." + f).value == DigitsValue(w) as real + Fraction(f)
  {
    var s := w + "." + f;
    DotAfterDigits(w, f);
    assert s[..|w|] == w;
    assert s[|w| + 1..] == f;
    UnsignedWithDot(s);
  }

  /** Text beginning with a digit or a '.' carries no sign. */
  lemma UnsignedText(s: string)
    requires |s| > 0 && (IsDigit(s[0]) || s[0] == '.')
    ensures SplitSign(s) == (false, s)
  {
  }

  /** The digits `wf` scaled down by `|f|` places are the whole part `w`
      plus the fraction `f`. */
  lemma ConcatScaled(w: string, f: string)
    requires AllDigits(w) && AllDigits(f)
    ensures AllDigits(w + f)
    ensures DigitsValue(w + f) as real / Pow10(|f|) as real == DigitsValue(w) as real + Fraction(f)
  {
    DigitsValueConcat(w, f);
    ScaleDown(DigitsValue(w), DigitsValue(f), Pow10(|f|));
  }

  /** Text `w.f` with digit runs `w` and `f`, not both empty, is read by
      `float` as the digits `wf` scaled down by `|f|` decimal places. */
  lemma DecimalPointValue(w: string, f: string)
    requires AllDigits(w) && AllDigits(f) && |w| + |f| > 0
    ensures ParseFloatText(w + "." + f).Some?
    ensures ParseIntText(w + f).Some?
    ensures ParseFloatText(w + "." + f).value ==
      ParseIntText(w + f).value as real / Pow10(|f|) as real
  {
    var s := w + "." + f;
    if |w| > 0 {
      assert s[0] == w[0];
    } else {
      assert s[0] == '.';
    }
    UnsignedText(s);
    UnsignedPointText(w, f);
    assert ParseFloatText(s).value == DigitsValue(w) as real + Fraction(f);
    ConcatScaled(w, f);
    var wf := w + f;
    UnsignedText(wf);
    assert ParseIntText(wf).value == DigitsValue(wf);
  }

  /** The only text `float` accepts: after the sign, either a run of digits
      or two digit runs, not both empty, around one '.'. So `float(".")` and
      `float("1.x")` raise `ValueError`. */
  lemma FloatTextShape(s: string)
    requires ParseFloatText(s).Some?
    ensures var b := SplitSign(s).1;
      || (|b| > 0 && AllDigits(b))
      || exists w, f :: AllDigits(w) && AllDigits(f) && |w| + |f| > 0 && b == w + "." + f
  {
    var b := SplitSign(s).1;
    var d := DotIndex(b);
    if d < |b| {
      var w := b[..d];
      var f := b[d + 1..];
      assert b == w + "." + f;
    } else {
      assert b[..d] == b;
    }
  }

  lemma FifteenText()
    ensures ParseIntText("15") == Some(15)
  {
    SingleDigitText('1');
    IntTextAppendDigit("1", '5');
    assert "1" + "5" == "15";
  }

  /** A negative amount sent as text: `float("-1.5") == -1.5`. */
  lemma NegativeDecimalText()
    ensures ParseFloatText("-1.5").Some?
    ensures ParseFloatText("-1.5").value == -1.5
  {
    FifteenText();
    DecimalPointValue("1", "5");
    assert "1" + "." + "5" == "1.5";
    assert "1" + "5" == "15";
    assert Pow10(1) == 10;
    SignedFloatText("1.5");
    assert "-" + "1.5" == "-1.5";
  }
}

=== FILE: options.dfy ===
/** The optional value used wherever a Python conversion may fail or a
    function of the order book may answer `None`. */
module Options {

  datatype Option<+T> = None | Some(value: T)
}

=== FILE: pyjson.dfy ===
/** A decoded JSON value and the few Python operations the parse loop applies
    to one: subscripting with a small integer, `float(...)` and `int(...)`.
    JSON numbers are exact reals; Python's int/float distinction only matters
    for `int(...)`, which truncates toward zero either way. */
module PyJson {
  import opened Options
  import NumText

  datatype Json =
    | Null
    | Bool(b: bool)
    | Num(n: real)
    | Str(s: string)
    | Arr(items: seq<Json>)
    | Obj(members: seq<(string, Json)>)

  /** The three ways `v[i]` can end. */
  datatype Lookup =
    | Found(item: Json)
    /** `IndexError` (list or string too short) or `TypeError` (not subscriptable) */
    | IndexOrTypeError
    /** `KeyError`: a JSON object's keys are strings, so an integer key is never present */
    | KeyError

  /** Python `v[i]` for a non-negative `i`. */
  function Subscript(v: Json, i: nat): (r: Lookup)
    ensures r.KeyError? <==> v.Obj?
    ensures r.Found? <==> (v.Arr? && i < |v.items|) || (v.Str? && i < |v.s|)
  {
    match v
    case Arr(items) => if i < |items| then Found(items[i]) else IndexOrTypeError
    case Str(s) => if i < |s| then Found(Str([s[i]])) else IndexOrTypeError
    case Obj(_) => KeyError
    case _ => IndexOrTypeError
  }

  /** What `v[i]` finds: the element of a list, or the one-character
      string at that position of a string. */
  lemma SubscriptFinds(v: Json, i: nat)
    requires Subscript(v, i).Found?
    ensures v.Arr? ==> Subscript(v, i).item == v.items[i]
    ensures v.Str? ==> Subscript(v, i).item == Str([v.s[i]])
  {
  }

  /** Python `int(x)` for a finite float: truncation toward zero. */
  function Trunc(x: real): (r: int)
    ensures 0.0 <= x ==> r as real <= x < r as real + 1.0
    ensures x < 0.0 ==> r as real - 1.0 < x <= r as real
  {
    if x >= 0.0 then x.Floor else -((-x).Floor)
  }

  /** Python `float(v)`; `None` stands for the `ValueError` or `TypeError`.
      `bool` is a subclass of `int` in Python, so `float(True) == 1.0`. */
  function ToFloat(v: Json): (r: Option<real>)
    ensures v.Null? || v.Arr? || v.Obj? ==> r.None?
    ensures v.Num? ==> r == Some(v.n)
    ensures v.Bool? ==> r.Some? && (r.value == 1.0 <==> v.b) && (r.value == 0.0 <==> !v.b)
  {
    match v
    case Num(x) => Some(x)
    case Bool(b) => Some(if b then 1.0 else 0.0)
    case Str(s) => NumText.ParseFloatText(s)
    case _ => None
  }

  /** Python `int(v)`; `None` stands for the `ValueError` or `TypeError`. */
  function ToInt(v: Json): (r: Option<int>)
    ensures v.Null? || v.Arr? || v.Obj? ==> r.None?
    ensures v.Num? ==> r == Some(Trunc(v.n))
    ensures v.Bool? ==> r.Some? && ToFloat(v) == Some(r.value as real)
  {
    match v
    case Num(x) => Some(Trunc(x))
    case Bool(b) => Some(if b then 1 else 0)
    case Str(s) => NumText.ParseIntText(s)
    case _ => None
  }

  /** Wherever `int(v)` succeeds, so does `float(v)`, and `int(v)` is the
      truncation of `float(v)`: the period field agrees with the float reading
      of the same value. */
  lemma IntIsTruncatedFloat(v: Json)
    requires ToInt(v).Some?
    ensures ToFloat(v).Some?
    ensures ToInt(v).value == Trunc(ToFloat(v).value)
  {
    match v
    case Num(x) =>
    case Bool(b) =>
    case Str(s) =>
      NumText.IntTextIsFloatText(s);
      var n := NumText.ParseIntText(s).value;
      assert Trunc(n as real) == n;
  }
}

=== FILE: records.dfy ===
/** The record parser of `fetch_funding_orderbook`: each raw tuple of the
    payload becomes one typed funding offer, or is dropped. */
module Records {
  import opened Options
  import opened PyJson
  import NumText

  /* Positions the parse loop reads. The loop takes the amount from position 2
     and the offer count from position 3. The exchange documents its funding
     book entries as [RATE, PERIOD, COUNT, AMOUNT], the other way round for
     the last two; the model reads the positions the code reads. */
  const RatePos: nat := 0
  const PeriodPos: nat := 1
  const AmountPos: nat := 2
  const OrdersPos: nat := 3

  /** One parsed funding offer: `Rate` in percent, signed `Amount`,
      `Period` in days and the number of `Orders` behind it. */
  datatype Order = Order(rate: real, amount: real, period: int, orders: real)

  /** How the parse of one raw tuple ends. `Skipped` is a `ValueError`,
      `TypeError` or `IndexError`, which the loop catches and moves past;
      `Escaped` is the `KeyError` of subscripting a JSON object, which the
      loop does not catch and which ends the whole fetch. */
  datatype TupleOutcome = Parsed(order: Order) | Skipped | Escaped

  function FloatAt(v: Json, i: nat): Option<real> {
    match Subscript(v, i)
    case Found(x) => ToFloat(x)
    case _ => None
  }

  function IntAt(v: Json, i: nat): Option<int> {
    match Subscript(v, i)
    case Found(x) => ToInt(x)
    case _ => None
  }

  /** The body of the parse loop for one raw tuple. */
  function ParseTuple(v: Json): (r: TupleOutcome)
    ensures r.Escaped? <==> v.Obj?
    ensures r.Parsed? ==> (v.Arr? && |v.items| > OrdersPos) || (v.Str? && |v.s| > OrdersPos)
    ensures v.Null? || v.Bool? || v.Num? ==> r.Skipped?
  {
    if v.Obj? then Escaped
    else
      match (FloatAt(v, RatePos), IntAt(v, PeriodPos), FloatAt(v, AmountPos), FloatAt(v, OrdersPos))
      case (Some(rate), Some(period), Some(amount), Some(orders)) =>
        Parsed(Order(rate * 100.0, amount, period, orders))
      case _ => Skipped
  }

  /** An array tuple with at least four fields parses exactly when its first
      four fields convert, and then the record is: rate = 100 * field 0,
      period = int(field 1), amount = field 2, orders = field 3. */
  lemma ArrayTuple(items: seq<Json>)
    requires |items| > OrdersPos
    ensures ParseTuple(Arr(items)).Parsed? <==>
      ToFloat(items[RatePos]).Some? && ToInt(items[PeriodPos]).Some? &&
      ToFloat(items[AmountPos]).Some? && ToFloat(items[OrdersPos]).Some?
    ensures ParseTuple(Arr(items)).Parsed? ==>
      ParseTuple(Arr(items)).order == Order(100.0 * ToFloat(items[RatePos]).value,
                                            ToFloat(items[AmountPos]).value,
                                            ToInt(items[PeriodPos]).value,
                                            ToFloat(items[OrdersPos]).value)
  {
  }

  /** The usual payload entry: four JSON numbers, possibly followed by more
      fields, which are ignored. */
  lemma NumericTuple(rate: real, period: real, amount: real, orders: real, extra: seq<Json>)
    ensures ParseTuple(Arr([Num(rate), Num(period), Num(amount), Num(orders)] + extra))
         == Parsed(Order(100.0 * rate, amount, Trunc(period), orders))
  {
    var items := [Num(rate), Num(period), Num(amount), Num(orders)] + extra;
    assert items[RatePos] == Num(rate) && items[PeriodPos] == Num(period);
    assert items[AmountPos] == Num(amount) && items[OrdersPos] == Num(orders);
    ArrayTuple(items);
  }

  /** Fields after position 3 never affect the parse. */
  lemma ExtraFieldsIgnored(items: seq<Json>, extra: seq<Json>)
    requires |items| > OrdersPos
    ensures ParseTuple(Arr(items + extra)) == ParseTuple(Arr(items))
  {
    var all := items + extra;
    assert all[RatePos] == items[RatePos] && all[PeriodPos] == items[PeriodPos];
    assert all[AmountPos] == items[AmountPos] && all[OrdersPos] == items[OrdersPos];
  }

  /** What one parse outcome contributes to the record list. */
  function Contribution(out: TupleOutcome): (r: seq<Order>)
    ensures |r| <= 1
  {
    match out
    case Parsed(o) => [o]
    case _ => []
  }

  /** The records of the parsed outcomes, in order. */
  function Kept(outs: seq<TupleOutcome>): (r: seq<Order>)
    ensures |r| <= |outs|
  {
    if |outs| == 0 then []
    else Kept(outs[..|outs| - 1]) + Contribution(outs[|outs| - 1])
  }

  /** The parse outcome of every tuple of the payload. */
  function Outcomes(data: seq<Json>): (r: seq<TupleOutcome>)
    ensures |r| == |data|
    ensures forall j :: 0 <= j < |data| ==> r[j] == ParseTuple(data[j])
  {
    seq(|data|, j requires 0 <= j < |data| => ParseTuple(data[j]))
  }

  /** The records of all tuples that parse, in payload order, ignoring
      whether some tuple escaped. */
  function Survivors(data: seq<Json>): seq<Order> {
    Kept(Outcomes(data))
  }

  /** Some tuple of the payload is a JSON object. */
  predicate HasObject(data: seq<Json>) {
    exists j :: 0 <= j < |data| && data[j].Obj?
  }

  /** The record list the parse loop hands on, or `None` when an object
      tuple raised the uncaught `KeyError`. Every record handed on is the
      parse of some tuple of the payload, and there are no more records than
      tuples. */
  function ParseAll(data: seq<Json>): (r: Option<seq<Order>>)
    ensures r.None? <==> exists j :: 0 <= j < |data| && data[j].Obj?
    ensures r.Some? ==> |r.value| <= |data|
    ensures r.Some? ==> forall k :: 0 <= k < |r.value| ==>
      exists j :: 0 <= j < |data| && ParseTuple(data[j]) == Parsed(r.value[k])
  {
    KeptFrom(Outcomes(data));
    if HasObject(data) then None else Some(Survivors(data))
  }

  /** The collecting half of the parse loop, over the tuples' outcomes in
      order: a parsed record is appended, a skipped tuple is passed over, an
      escaped error stops everything. */
  method CollectRecords(outs: seq<TupleOutcome>) returns (r: Option<seq<Order>>)
    ensures r.None? <==> exists j :: 0 <= j < |outs| && outs[j].Escaped?
    ensures r.Some? ==> r.value == Kept(outs)
  {
    var orders: seq<Order> := [];
    var i := 0;
    while i < |outs|
      invariant 0 <= i <= |outs|
      invariant orders == Kept(outs[..i])
      invariant forall j :: 0 <= j < i ==> !outs[j].Escaped?
    {
      assert outs[..i + 1][..i] == outs[..i];
      match outs[i] {
        case Escaped =>
          return None;
        case Skipped =>
        case Parsed(o) =>
          orders := orders + [o];
      }
      i := i + 1;
    }
    assert outs[..i] == outs;
    return Some(orders);
  }

  /** The parse loop over the payload. Parsing a tuple has no effect besides
      its outcome, so parsing each tuple and then collecting the outcomes in
      order is the loop itself. */
  method ParseOrders(data: seq<Json>) returns (r: Option<seq<Order>>)
    ensures r.None? <==> exists j :: 0 <= j < |data| && data[j].Obj?
    ensures r.Some? ==> r.value == Survivors(data)
    ensures r == ParseAll(data)
  {
    var outs := Outcomes(data);
    r := CollectRecords(outs);
    if r.None? {
      var j :| 0 <= j < |outs| && outs[j].Escaped?;
      assert data[j].Obj?;
    } else {
      forall j | 0 <= j < |data|
        ensures !data[j].Obj?
      {
        assert !outs[j].Escaped?;
      }
    }
  }

  lemma {:induction false} KeptConcat(a: seq<TupleOutcome>, b: seq<TupleOutcome>)
    ensures Kept(a + b) == Kept(a) + Kept(b)
    decreases |b|
  {
    if |b| == 0 {
      assert a + b == a;
    } else {
      var n := |b| - 1;
      assert (a + b)[..|a + b| - 1] == a + b[..n];
      KeptConcat(a, b[..n]);
    }
  }

  /** Every kept record is the record of some parsed outcome. */
  lemma {:induction false} KeptFrom(outs: seq<TupleOutcome>)
    ensures forall k :: 0 <= k < |Kept(outs)| ==>
      exists j :: 0 <= j < |outs| && outs[j] == Parsed(Kept(outs)[k])
    decreases |outs|
  {
    if |outs| > 0 {
      var n := |outs| - 1;
      var init := outs[..n];
      KeptFrom(init);
      assert Kept(outs) == Kept(init) + Contribution(outs[n]);
      forall k | 0 <= k < |Kept(outs)|
        ensures exists j :: 0 <= j < |outs| && outs[j] == Parsed(Kept(outs)[k])
      {
        if k < |Kept(init)| {
          var j :| 0 <= j < |init| && init[j] == Parsed(Kept(init)[k]);
          assert outs[j] == init[j];
        } else {
          assert outs[n].Parsed? && Kept(outs)[k] == outs[n].order;
        }
      }
    } else {
      assert |Kept(outs)| == 0;
    }
  }

  lemma {:induction false} KeptAll(outs: seq<TupleOutcome>)
    ensures |Kept(outs)| == |outs| <==> forall j :: 0 <= j < |outs| ==> outs[j].Parsed?
    decreases |outs|
  {
    if |outs| > 0 {
      var n := |outs| - 1;
      var init := outs[..n];
      KeptAll(init);
      if outs[n].Parsed? {
        if forall j :: 0 <= j < n ==> init[j].Parsed? {
          forall j | 0 <= j < |outs|
            ensures outs[j].Parsed?
          {
            if j < n {
              assert outs[j] == init[j];
            }
          }
        } else {
          var j :| 0 <= j < n && !init[j].Parsed?;
          assert outs[j] == init[j];
        }
      }
    }
  }

  lemma {:induction false} KeptNonEmpty(outs: seq<TupleOutcome>)
    ensures |Kept(outs)| > 0 <==> exists j :: 0 <= j < |outs| && outs[j].Parsed?
    decreases |outs|
  {
    if |outs| > 0 {
      var n := |outs| - 1;
      var init := outs[..n];
      KeptNonEmpty(init);
      if exists j :: 0 <= j < n && init[j].Parsed? {
        var j :| 0 <= j < n && init[j].Parsed?;
        assert outs[j] == init[j];
      }
      if exists j :: 0 <= j < |outs| && outs[j].Parsed? {
        var j :| 0 <= j < |outs| && outs[j].Parsed?;
        if j < n {
          assert outs[j] == init[j];
        }
      }
    }
  }

  lemma OutcomesConcat(a: seq<Json>, b: seq<Json>)
    ensures Outcomes(a + b) == Outcomes(a) + Outcomes(b)
  {
    var l, r := Outcomes(a + b), Outcomes(a) + Outcomes(b);
    forall j | 0 <= j < |l|
      ensures l[j] == r[j]
    {
      if j < |a| {
        assert (a + b)[j] == a[j];
      } else {
        assert (a + b)[j] == b[j - |a|];
      }
    }
  }

  /** Parsing distributes over concatenation of payloads: every tuple is
      handled on its own, and the surviving records keep payload order. */
  lemma SurvivorsConcat(a: seq<Json>, b: seq<Json>)
    ensures Survivors(a + b) == Survivors(a) + Survivors(b)
  {
    OutcomesConcat(a, b);
    KeptConcat(Outcomes(a), Outcomes(b));
  }

  /** Each tuple that parses produces exactly one record: the payload keeps
      all its tuples exactly when every tuple parses. */
  lemma SurvivorsKeepAll(data: seq<Json>)
    ensures |Survivors(data)| == |data| <==>
      forall j :: 0 <= j < |data| ==> ParseTuple(data[j]).Parsed?
  {
    KeptAll(Outcomes(data));
  }

  /** Some record survives exactly when some tuple parses. */
  lemma SurvivorsNonEmpty(data: seq<Json>)
    ensures |Survivors(data)| > 0 <==> exists j :: 0 <= j < |data| && ParseTuple(data[j]).Parsed?
  {
    var outs := Outcomes(data);
    KeptNonEmpty(outs);
    if exists j :: 0 <= j < |outs| && outs[j].Parsed? {
      var j :| 0 <= j < |outs| && outs[j].Parsed?;
      assert ParseTuple(data[j]).Parsed?;
    }
  }

  /** A single tuple yields its record if it parses and nothing otherwise. */
  lemma SurvivorsOfOne(v: Json)
    ensures Survivors([v]) == Contribution(ParseTuple(v))
  {
    assert Outcomes([v]) == [ParseTuple(v)];
    assert [ParseTuple(v)][..0] == [];
  }

  /** A tuple that fails to parse leaves no trace: parsing goes on with the
      tuples after it as if it were not there. */
  lemma SkippedTupleVanishes(before: seq<Json>, v: Json, after: seq<Json>)
    requires ParseTuple(v).Skipped?
    ensures Survivors(before + [v] + after) == Survivors(before + after)
  {
    SurvivorsOfOne(v);
    SurvivorsConcat(before + [v], after);
    SurvivorsConcat(before, [v]);
    SurvivorsConcat(before, after);
    assert Survivors(before + [v]) == Survivors(before);
  }

  /** A string tuple parses as the list of its first four characters, each
      a one-character string; the characters after position 3 are never read.
      With `ArrayTuple` this fixes the parse of every string tuple. */
  lemma StringTupleIsCharList(s: string)
    requires |s| > OrdersPos
    ensures ParseTuple(Str(s)) == ParseTuple(Arr([Str([s[0]]), Str([s[1]]), Str([s[2]]), Str([s[3]])]))
  {
  }

  /** A string tuple is subscripted character by character, so a payload
      entry such as "1234" parses: rate 100, period 2, amount 3, orders 4. */
  lemma StringTupleParses()
    ensures ParseTuple(Str("1234")) == Parsed(Order(100.0, 3.0, 2, 4.0))
  {
    var v := Str("1234");
    NumText.SingleDigitText('1');
    NumText.SingleDigitText('2');
    NumText.SingleDigitText('3');
    NumText.SingleDigitText('4');
    assert Subscript(v, RatePos) == Found(Str("1"));
    assert Subscript(v, PeriodPos) == Found(Str("2"));
    assert Subscript(v, AmountPos) == Found(Str("3"));
    assert Subscript(v, OrdersPos) == Found(Str("4"));
  }
}
